=== FILE: README.md ===
# Playlist audio player: the playback state machine

This project models the playback controller of a small playlist audio player
(`script.js`): a fixed list of tracks, each with its own play button, and
global controls for play/pause, next, previous, shuffle, repeat, volume, mute
and a seekable progress bar. Once the page markup is set aside, what is left
is a single-owner state machine. Its state is the module variables
`currentPlayingAudio`/`currentAudioButton`, `currentIndex`, `isShuffle`,
`isRepeat` and `isDragging`, plus each media element's paused flag, position,
volume and progress listener.

The model has four parts:

- `Playback` (playback.dfy): the whole session as a value (`Session`), with one
  function per handler (`Reset`, `PlayTrack`, `Next`, `Previous`, `SongEnd`,
  `PlayPause`, `GlobalToggle`, `SetVolume`, `ToggleMute`, the drag handlers,
  `UpdateProgress`, `TimeUpdate`). The invariant `Inv` says that there is at least
  one track with one button each, that indices are in range, that every
  volume and the slider are at most 100, that every track other than the
  active one is paused at 0 with no progress listener and a "play" icon, and
  that the active track is `currentIndex` and keeps its progress listener.
  Each handler preserves `Inv`, and so does any sequence of page events
  (`Run`).
- `Controller` (controller.dfy): class `Player`, which runs the same handlers
  in place. The per-track media state and button icons are arrays updated
  element by element, and the module variables are fields. Every method
  ensures that the new state is the matching `Playback` function of the old
  state, so everything proved about those functions holds of the running
  object.
- `Properties` (properties.dfy): what the handlers promise about each other.
  This covers wrap-around, N presses of next returning to the start, next and
  previous undoing each other, and repeat replaying from 0. It also covers
  resetting twice being resetting once, which track plays after a button is
  pressed, the drag guard and the lossy mute.
- `Display` (display.dfy): `formatTime` with its inverse, and the three-way
  volume icon.

`Math.random` becomes a caller-supplied index `pick < N`. Volumes are integer
percents; this is exact for the slider's 0–100 values and for the thresholds
0 and 50. Positions and seek targets are whole seconds.

Some behaviour of the code is easy to misread. The model keeps it as
written:

- Moving the volume slider changes the media volume and the icon only while
  a track is active (script.js:63-66). With no active track, only the slider
  moves (`SetVolumeIdle`).
- Volume belongs to each media element. Switching tracks keeps every
  element's own volume and the slider's position, so the slider and the
  playing track's volume can differ (`NextKeepsOwnVolumes`).
- A newly selected track is never rewound explicitly (script.js:96-101). It
  starts at 0 because every track that stops being active is rewound
  (`SelectOtherStartsFromZero`).
- At most one track plays at a time, and it is the active one. A track paused
  with its own button stays active while nothing plays (`RunKeepsInv`,
  `InvOnlyActivePlays`).
- The global button updates only the global icon and never the track's own
  button (script.js:45-55), so the two can disagree
  (`GlobalToggleLeavesTrackIcon`).
- Mute is lossy: unmuting restores a fixed 50, not the earlier volume
  (script.js:208-219, `MuteIsLossy`).
- Shuffle may draw the current track again (script.js:161-162,
  `ShuffleNextPlaysPick`).

## Model

| member | source | states |
|---|---|---|
| Display.Decimal | script.js:191-193 | the minutes text is a non-empty digit string without leading zeros; below 10 it is one digit, below 100 at most two |
| Display.ParseDecimalOfDecimal | script.js:191-193 | reading the decimal numeral back gives the number |
| Display.FormatTime | script.js:190-194 | the time text is minute digits, a colon, then exactly two second digits; the minutes carry no leading zero |
| Display.FormatTimeParts | script.js:191-193 | the text before the colon is exactly the unpadded minutes numeral, and the two characters after it are the seconds padded to two digits |
| Display.ParseFormatTime | script.js:190-194 | the time text loses nothing: parsing `m:ss` back gives the original whole seconds (minutes = s div 60, seconds = s mod 60 padded) |
| Display.FormatTimeExamples | script.js:190-194 | 65 s shows "1:05", 5 s shows "0:05", 125 s shows "2:05" |
| Display.IconFor | script.js:197-205 | the icon is mute exactly at 0, low exactly for 0 < v < 50, full exactly from 50 up |
| Playback.Init | script.js:1-7 | at page load nothing is active, the index is 0, shuffle, repeat and dragging are off, and the invariant holds |
| Playback.InvOnlyActivePlays | script.js:128-156 | under the invariant at most one track is unpaused, and it is the active one |
| Playback.Reset | script.js:146-156 | the active track is left paused at 0 without a progress listener and with a "play" icon; every other track, the index, the active slot, all volumes and all flags are untouched; the invariant's shape is kept |
| Playback.PlayTrack | script.js:128-143 | track `currentIndex` becomes active and plays from position 0 with a listener and "pause" icons; every other track is stopped; volumes, flags, slider and icon are kept |
| Playback.Next | script.js:159-165 | the index becomes the draw under shuffle and (i+1) mod N otherwise; that track is active and playing from 0; shuffle and repeat are kept; the invariant holds |
| Playback.Previous | script.js:168-172 | the new current track is active and plays from 0 with its progress listener; shuffle and repeat are kept; the invariant holds |
| Playback.SongEnd | script.js:119-125 | the invariant holds after a track ends, and shuffle and repeat are kept |
| Playback.PlayPause | script.js:91-116 | the chosen track becomes active and current, its paused flag flips, its button and the global button show its new state, and the invariant holds |
| Playback.Toggle | script.js:96-107 | the chosen track's paused flag flips, and starting it also attaches its progress listener; its button and the global button show the new state; its position and volume, every other track and the flags stay |
| Playback.ToggleKeepsInv | script.js:91-116 | once every other track is stopped, and the chosen track is paused or already listening, toggling it and making it active and current keeps the invariant |
| Playback.GlobalToggle | script.js:45-55 | the global button keeps the invariant |
| Playback.ToggleShuffle | script.js:26-29 | the shuffle flag has no bearing on the invariant |
| Playback.ToggleRepeat | script.js:32-35 | the repeat flag has no bearing on the invariant |
| Playback.SetVolume | script.js:62-67 | the slider takes the level; an active track takes it as its volume, keeping its paused flag, position and listener, and the icon follows it; every other track and every other field stay; the invariant holds |
| Playback.ToggleMute | script.js:208-219 | with an active track, a nonzero volume becomes 0 and 0 becomes 50, on that track, the slider and the icon, and nothing else about the track changes; every other track and every other field stay; the invariant holds |
| Playback.BeginDrag | script.js:71-73 | starting a drag has no bearing on the invariant |
| Playback.EndDrag | script.js:75-81 | releasing the bar always ends the drag and keeps the invariant |
| Playback.DragInput | script.js:83-88 | previewing a position has no bearing on the invariant |
| Playback.UpdateProgress | script.js:175-187 | only the elapsed-time text can change, so the invariant is unaffected |
| Playback.TimeUpdate | script.js:137 | a progress event changes at most the elapsed-time text, so the invariant is unaffected |
| Playback.Apply | script.js:26-88 | every page event keeps the invariant and the number of tracks |
| Playback.RunKeepsInv | script.js:26-88 | after any sequence of page events the invariant holds, and at most one track plays, the active one |
| Properties.Advance | script.js:159-165 | without shuffle, k presses of next move the index k steps forward, one wrap at a time |
| Properties.AdvanceIndex | script.js:159-165 | without shuffle, k presses of next move the index to (i+k) mod N |
| Properties.Finish | script.js:119-125 | with repeat and shuffle off, k track ends in a row move the index k steps forward, one wrap at a time |
| Properties.NextCycles | script.js:159-165 | without shuffle, N presses of next return to the starting track |
| Properties.NextNotBackSooner | script.js:159-165 | without shuffle, fewer than N presses never return to the starting track |
| Properties.ShuffleNextPlaysPick | script.js:161-164 | with shuffle, next plays the drawn track from 0, which may be the current one |
| Properties.PreviousWraps | script.js:168-172 | previous goes to i-1, and from 0 to N-1, whether or not shuffle is on |
| Properties.PreviousFromFirstOfFive | script.js:170 | with five tracks, previous from the first goes to the fifth |
| Properties.ResetTwice | script.js:146-156 | resetting twice equals resetting once |
| Properties.PlayTrackAfterReset | script.js:159-164 | the reset next/previous do before `playTrack` (which resets again) changes nothing |
| Properties.NextStopsPrevious | script.js:159-172 | after next or previous, the track that was active is paused at 0 with no listener and a "play" icon, unless it is the track that now plays |
| Properties.PlayTrackDetermined | script.js:128-143 | what `playTrack` leaves depends only on `currentIndex`, the tracks' volumes and the flags, not on which track was active or where the others were |
| Properties.NextUndoesPrevious | script.js:159-172 | without shuffle, next after previous equals replaying the current track from 0 |
| Properties.PreviousUndoesNext | script.js:159-172 | without shuffle, previous after next equals replaying the current track from 0 |
| Properties.RepeatReplaysSameTrack | script.js:119-143 | under repeat, a track end keeps the index and replays that track from 0 at its own volume, with every other track stopped |
| Properties.EndedIsNextWithoutRepeat | script.js:119-125 | without repeat, a track end is exactly the next button |
| Properties.ThreeTrackScenario | script.js:119-165 | three tracks, shuffle and repeat off: playing the first and letting tracks end gives indices 1, 2, then 0 |
| Properties.SelectActiveToggles | script.js:91-116 | the active track's own button flips only its paused flag (it already has its listener): no rewind, same volume, other tracks unchanged |
| Properties.SelectOtherStartsFromZero | script.js:91-116 | another track's button rewinds and stops the active one and starts the chosen one from 0 with a listener and "pause" icons |
| Properties.GlobalToggleIdle | script.js:45-55 | the global button does nothing with no active track |
| Properties.GlobalToggleFlipsActive | script.js:45-55 | with an active track, the global button flips only that track's paused flag and sets the global icon from it; every other field of the track and of the session, including the track's own icon, stays |
| Properties.GlobalToggleLeavesTrackIcon | script.js:45-55 | after the global button, the track's own icon no longer matches its paused state |
| Properties.TogglesFlipOwnFlag | script.js:26-35 | shuffle and repeat each flip only their own flag, and pressing twice is no change |
| Properties.ProgressGuard | script.js:175-187 | while dragging or with no active track, a progress update changes nothing |
| Properties.UnsubscribedTickIgnored | script.js:146-156 | progress events from a track whose listener was removed change nothing |
| Properties.TicksDuringDrag | script.js:175-187 | any run of progress events during a drag leaves the whole session unchanged |
| Properties.DragThenRelease | script.js:71-81 | mousedown then mouseup ends the drag and changes the active track's position and nothing else about any track; with no active track no track changes |
| Properties.DragInputOnlyPreviews | script.js:83-88 | bar input during a drag changes only the elapsed-time text |
| Properties.VolumeIcons | script.js:62-67 | with an active track, slider 0, 40 and 75 show mute, low and full, and the track takes the level |
| Properties.MuteIsLossy | script.js:208-219 | from an audible volume, the first click gives 0 and mute, the second gives 50 and full, on track and slider |
| Properties.SetVolumeIdle | script.js:62-67 | with no active track the slider moves and nothing else changes |
| Properties.MuteIdle | script.js:208-219 | the volume icon does nothing with no active track |
| Properties.NextKeepsOwnVolumes | script.js:62-67 | changing track keeps every track's own volume and the slider |
| Controller.Player.constructor | script.js:1-7 | the new player is the page-load session, and the invariant holds |
| Controller.Player.ResetCurrentAudio | script.js:146-156 | the arrays are updated to `Reset` of the old state; the active track ends paused at 0 with a "play" icon |
| Controller.Player.PlayTrack | script.js:128-143 | the new state is `PlayTrack` of the old; `currentIndex` is kept, active and playing from 0 |
| Controller.Player.NextTrack | script.js:159-165 | the new state is `Next` of the old; the index is the draw or (i+1) mod N, and it plays from 0 |
| Controller.Player.PreviousTrack | script.js:168-172 | the new state is `Previous` of the old; the index is (i-1+N) mod N |
| Controller.Player.HandleSongEnd | script.js:119-125 | the new state is `SongEnd` of the old; the index is kept under repeat, else advances as next; that track plays from 0 |
| Controller.Player.HandlePlayPause | script.js:91-116 | the new state is `PlayPause` of the old; the chosen track is active and current, and its paused flag flips |
| Controller.Player.StopOther | script.js:92-94 | the arrays are updated to `Reset` of the old state when another track was active, and are unchanged otherwise |
| Controller.Player.ToggleTrack | script.js:96-107 | the new state is `Toggle` of the old |
| Controller.Player.GlobalPlayPause | script.js:45-55 | the new state is `GlobalToggle` of the old; index, active slot and track icons are kept |
| Controller.Player.ToggleShuffle | script.js:26-29 | only `isShuffle` changes, and it flips |
| Controller.Player.ToggleRepeat | script.js:32-35 | only `isRepeat` changes, and it flips |
| Controller.Player.SetVolume | script.js:62-67 | the new state is `SetVolume` of the old; an active track takes the level and its icon |
| Controller.Player.ToggleMute | script.js:208-219 | the new state is `ToggleMute` of the old; an active track goes from nonzero to 0, or from 0 to 50 |
| Controller.Player.BeginDrag | script.js:71-73 | only `isDragging` changes, and it becomes true |
| Controller.Player.EndDrag | script.js:75-81 | the new state is `EndDrag` of the old; `isDragging` is false |
| Controller.Player.DragInput | script.js:83-88 | the new state is `DragInput` of the old |
| Controller.Player.UpdateProgress | script.js:175-187 | the new state is `UpdateProgress` of the old; nothing changes while dragging or with no active track |
| Controller.Player.TimeUpdate | script.js:137 | the new state is `TimeUpdate` of the old: only a subscribed track's event reaches `updateProgress` |

## Left out

- Element lookup, `classList`/`innerHTML` markup and `addEventListener` wiring (script.js:10-23, 38-42): this is presentation. Button icons are kept as one "shows pause" flag per track plus one for the global button, and `updatePlayButtonState` (script.js:222-226) is that global flag.
- `Math.random` (script.js:162): replaced by the caller's `pick < N`.
- Floating point: the progress percentage, the bar's fill style and value (script.js:177-182), and the seek time `value / 100 * duration` (script.js:78, 85). Seek targets are given to `EndDrag` and `DragInput` as whole seconds.
- Playback.EndDrag: takes the seek time already computed. A seek while the duration is still unknown (NaN in the browser, which rejects it) is not modelled.
- Playback.UpdateProgress: tracks only the elapsed-seconds text. The percentage, the bar and the total-time text it also writes are left out (floating point).
- Fractional seconds in `formatTime`: seconds are whole numbers, so `Math.floor` is the identity.
- Display.Decimal: writes every natural number in plain decimal. JavaScript switches to exponent form from 10^21 ("1e+21") and loses integer precision above 2^53; times that large are not modelled.
- The `loadedmetadata` listener and the total-time text (script.js:113-115, 142): duration availability belongs to the host media element, and each call adds another listener.
- The host's own behaviour: positions advancing during playback, an element pausing itself when it reaches its end, `play()` being refused by the browser. Positions change only through the handlers, and `play()` always succeeds.
- The page's initial markup: the constructor takes the slider's starting level and shows the matching icon. Every element starts paused at 0 with volume 100 and the "play" icon.
- Concurrency: handlers run to completion one at a time, so events are modelled as a sequence (`Run`).
- An empty playlist: every session has at least one track. With no audio elements, `previousTrack`, and `nextTrack` without shuffle, compute an index from a remainder by zero (script.js:163, 170); under shuffle the draw is 0 (script.js:162). Either way `playTrack` then fails on a missing element (script.js:136). The model does not describe this failure.

=== FILE: controller.dfy ===
/**
 * The handlers of script.js as they run: one `Player` object holds the
 * module-level variables as fields and the per-track state in arrays that
 * the handlers update in place. Every method states its effect as the
 * matching `Playback` function of the state before, so what is proved about
 * those functions holds of the running player.
 */
module Controller {
  import opened Wrappers
  import opened Display
  import opened Playback

  class Player {
    /** The media elements, one per track, in page order. */
    const audio: array<Audio>
    /** Whether each track's button shows the pause icon. */
    const showsPause: array<bool>

    var active: Option<nat>     // currentPlayingAudio, currentAudioButton
    var currentIndex: nat
    var isShuffle: bool
    var isRepeat: bool
    var isDragging: bool
    var globalShowsPause: bool
    var slider: nat
    var icon: VolumeIcon
    var elapsedShown: nat

    ghost function State(): Session
      reads this, audio, showsPause
    {
      Session(audio[..], showsPause[..], active, currentIndex, isShuffle, isRepeat,
              isDragging, globalShowsPause, slider, icon, elapsedShown)
    }

    /** The state between two handlers. */
    ghost predicate Valid()
      reads this, audio, showsPause
    {
      Inv(State())
    }

    /** The state inside `nextTrack` and `previousTrack`, before `playTrack` runs. */
    ghost predicate WellFormed()
      reads this, audio, showsPause
    {
      Wf(State())
    }

    /** The page at load: `n` tracks, all stopped at full volume, the slider at `sliderLevel`. */
    constructor (n: nat, sliderLevel: nat)
      requires n > 0 && sliderLevel <= 100
      ensures Valid() && State() == Init(n, sliderLevel)
      ensures fresh(audio) && fresh(showsPause)
    {
      audio := new Audio[n](_ => Audio(true, 0, false, DefaultVolume));
      showsPause := new bool[n](_ => false);
      active := None;
      currentIndex := 0;
      isShuffle, isRepeat, isDragging := false, false, false;
      globalShowsPause := false;
      slider := sliderLevel;
      icon := IconFor(sliderLevel);
      elapsedShown := 0;
      new;
      assert audio[..] == seq(n, _ => Audio(true, 0, false, DefaultVolume));
      assert showsPause[..] == seq(n, _ => false);
    }

    /** Number of tracks. */
    function Count(): nat
      reads this
    {
      audio.Length
    }

    method ResetCurrentAudio()
      requires WellFormed()
      modifies audio, showsPause
      ensures WellFormed() && State() == Reset(old(State()))
      ensures active.Some? ==> Rewound(audio[active.value]) && !showsPause[active.value]
    {
      if active.Some? {
        var a := active.value;
        audio[a] := audio[a].(paused := true, position := 0, subscribed := false);
        showsPause[a] := false;
      }
    }

    method PlayTrack()
      requires WellFormed()
      modifies this`active, this`globalShowsPause, audio, showsPause
      ensures Valid() && State() == Playback.PlayTrack(old(State()))
      ensures active == Some(currentIndex) && currentIndex == old(currentIndex)
      ensures !audio[currentIndex].paused && audio[currentIndex].position == 0
    {
      var i := currentIndex;
      ResetCurrentAudio();
      active := Some(i);
      audio[i] := audio[i].(paused := false, subscribed := true);
      showsPause[i] := true;
      globalShowsPause := true;
    }

    /** The next button; `pick` is the random draw used when shuffling. */
    method NextTrack(pick: nat)
      requires Valid() && pick < Count()
      modifies this`active, this`currentIndex, this`globalShowsPause, audio, showsPause
      ensures Valid() && State() == Playback.Next(old(State()), pick)
      ensures currentIndex == if old(isShuffle) then pick else (old(currentIndex) + 1) % Count()
      ensures active == Some(currentIndex) && !audio[currentIndex].paused && audio[currentIndex].position == 0
    {
      ghost var before := State();
      ResetCurrentAudio();
      currentIndex := if isShuffle then pick else (currentIndex + 1) % audio.Length;
      assert State() == Reset(before).(index := NextIndex(before, pick));
      PlayTrack();
    }

    /** The previous button. */
    method PreviousTrack()
      requires Valid()
      modifies this`active, this`currentIndex, this`globalShowsPause, audio, showsPause
      ensures Valid() && State() == Playback.Previous(old(State()))
      ensures currentIndex == (old(currentIndex) - 1 + Count()) % Count()
    {
      ghost var before := State();
      ResetCurrentAudio();
      currentIndex := (currentIndex - 1 + audio.Length) % audio.Length;
      assert State() == Reset(before).(index := PreviousIndex(before));
      PlayTrack();
    }

    /** The `ended` event of the playing track. */
    method HandleSongEnd(pick: nat)
      requires Valid() && pick < Count()
      modifies this`active, this`currentIndex, this`globalShowsPause, audio, showsPause
      ensures Valid() && State() == Playback.SongEnd(old(State()), pick)
      ensures currentIndex == if old(isRepeat) then old(currentIndex)
                              else if old(isShuffle) then pick
                              else (old(currentIndex) + 1) % Count()
      ensures active == Some(currentIndex) && !audio[currentIndex].paused && audio[currentIndex].position == 0
    {
      if isRepeat {
        PlayTrack();
      } else {
        NextTrack(pick);
      }
    }

    /** The button of track `k`. */
    method HandlePlayPause(k: nat)
      requires Valid() && k < Count()
      modifies this`active, this`currentIndex, this`globalShowsPause, audio, showsPause
      ensures Valid() && State() == Playback.PlayPause(old(State()), k)
      ensures active == Some(k) && currentIndex == k
      ensures audio[k].paused == !old(audio[k].paused)
    {
      ghost var before := State();
      StopOther(k);
      ghost var toggled := Toggle(State(), k);
      ToggleTrack(k);
      active := Some(k);
      currentIndex := k;
      assert State() == toggled.(active := Some(k), index := k);
      assert State() == Playback.PlayPause(before, k);
    }

    /** The first half of `handlePlayPause`: stop the active track unless it is track `k`. */
    method StopOther(k: nat)
      requires Valid() && k < Count()
      modifies audio, showsPause
      ensures WellFormed()
      ensures State() == if old(active).Some? && old(active).value != k then Reset(old(State())) else old(State())
    {
      if active.Some? && active.value != k {
        ResetCurrentAudio();
      }
    }

    /** The second half of `handlePlayPause`: play or pause track `k`, with its button and the global one. */
    method ToggleTrack(k: nat)
      requires k < Count() == showsPause.Length
      modifies this`globalShowsPause, audio, showsPause
      ensures State() == Toggle(old(State()), k)
    {
      if audio[k].paused {
        audio[k] := audio[k].(paused := false, subscribed := true);
        showsPause[k] := true;
        globalShowsPause := true;
      } else {
        audio[k] := audio[k].(paused := true);
        showsPause[k] := false;
        globalShowsPause := false;
      }
    }

    /** The global play/pause button. */
    method GlobalPlayPause()
      requires Valid()
      modifies this`globalShowsPause, audio
      ensures Valid() && State() == Playback.GlobalToggle(old(State()))
      ensures currentIndex == old(currentIndex) && active == old(active)
      ensures showsPause[..] == old(showsPause[..])
    {
      if active.Some? {
        var a := active.value;
        if audio[a].paused {
          audio[a] := audio[a].(paused := false);
          globalShowsPause := true;
        } else {
          audio[a] := audio[a].(paused := true);
          globalShowsPause := false;
        }
      }
    }

    /** The shuffle button. */
    method ToggleShuffle()
      requires Valid()
      modifies this`isShuffle
      ensures Valid() && State() == Playback.ToggleShuffle(old(State()))
      ensures isShuffle == !old(isShuffle)
    {
      isShuffle := !isShuffle;
    }

    /** The repeat button. */
    method ToggleRepeat()
      requires Valid()
      modifies this`isRepeat
      ensures Valid() && State() == Playback.ToggleRepeat(old(State()))
      ensures isRepeat == !old(isRepeat)
    {
      isRepeat := !isRepeat;
    }

    /** The volume slider moved to `level` percent. */
    method SetVolume(level: nat)
      requires Valid() && level <= 100
      modifies this`slider, this`icon, audio
      ensures Valid() && State() == Playback.SetVolume(old(State()), level)
      ensures active.Some? ==> audio[active.value].volume == level && icon == IconFor(level)
    {
      slider := level;
      if active.Some? {
        var a := active.value;
        audio[a] := audio[a].(volume := level);
        icon := IconFor(audio[a].volume);
      }
    }

    /** A click on the volume icon. */
    method ToggleMute()
      requires Valid()
      modifies this`slider, this`icon, audio
      ensures Valid() && State() == Playback.ToggleMute(old(State()))
      ensures active.Some? ==> audio[active.value].volume == (if old(audio[active.value].volume) > 0 then 0 else UnmuteVolume)
    {
      if active.Some? {
        var a := active.value;
        if audio[a].volume > 0 {
          audio[a] := audio[a].(volume := 0);
          slider := 0;
        } else {
          audio[a] := audio[a].(volume := UnmuteVolume);
          slider := UnmuteVolume;
        }
        icon := IconFor(audio[a].volume);
      }
    }

    /** Mousedown on the progress bar. */
    method BeginDrag()
      requires Valid()
      modifies this`isDragging
      ensures Valid() && State() == Playback.BeginDrag(old(State()))
      ensures isDragging
    {
      isDragging := true;
    }

    /** Mouseup on the progress bar, with `target` the seek time the bar's value stands for. */
    method EndDrag(target: nat)
      requires Valid()
      modifies this`isDragging, audio
      ensures Valid() && State() == Playback.EndDrag(old(State()), target)
      ensures !isDragging
    {
      isDragging := false;
      if active.Some? {
        var a := active.value;
        audio[a] := audio[a].(position := target);
      }
    }

    /** Input on the progress bar, with `target` the seek time the bar's value stands for. */
    method DragInput(target: nat)
      requires Valid()
      modifies this`elapsedShown
      ensures Valid() && State() == Playback.DragInput(old(State()), target)
    {
      if active.Some? && isDragging {
        elapsedShown := target;
      }
    }

    method UpdateProgress()
      requires Valid()
      modifies this`elapsedShown
      ensures Valid() && State() == Playback.UpdateProgress(old(State()))
      ensures isDragging || active == None ==> elapsedShown == old(elapsedShown)
    {
      if active.Some? && !isDragging {
        elapsedShown := audio[active.value].position;
      }
    }

    /** A `timeupdate` event from track `k`, which runs `updateProgress` only while subscribed. */
    method TimeUpdate(k: nat)
      requires Valid() && k < Count()
      modifies this`elapsedShown
      ensures Valid() && State() == Playback.TimeUpdate(old(State()), k)
    {
      if audio[k].subscribed {
        UpdateProgress();
      }
    }
  }
}

=== FILE: display.dfy ===
/**
 * What the player shows besides the tracks themselves: the elapsed and total
 * time text (`formatTime`, script.js:190-194) and the three-way volume icon
 * (`updateVolumeIcon`, script.js:197-205).
 *
 * Times are whole seconds and volumes integer percents; the fractional parts
 * the browser would carry are not modelled.
 */
module Display {
  import opened Wrappers

  predicate IsDigit(c: char) { '0' <= c <= '9' }

  predicate AllDigits(s: string) { forall i :: 0 <= i < |s| ==> IsDigit(s[i]) }

  function DigitChar(d: nat): (c: char)
    requires d < 10
    ensures IsDigit(c) && DigitValue(c) == d
  {
    ('0' as int + d) as char
  }

  function DigitValue(c: char): (d: nat)
    requires IsDigit(c)
    ensures d < 10
  {
    c as int - '0' as int
  }

  /** The numeral JavaScript writes for a non-negative integer below 10^21: decimal, no leading zeros. */
  function Decimal(n: nat): (s: string)
    ensures 1 <= |s| && AllDigits(s)
    ensures n < 10 <==> |s| == 1
    ensures n < 100 ==> |s| <= 2
    ensures |s| > 1 ==> s[0] != '0'
  {
    if n < 10 then [DigitChar(n)] else Decimal(n / 10) + [DigitChar(n % 10)]
  }

  /** Reads a string of digits as a decimal number; the inverse of `Decimal`. */
  function ParseDecimal(s: string): nat
    requires AllDigits(s)
  {
    if s == [] then 0 else ParseDecimal(s[..|s| - 1]) * 10 + DigitValue(s[|s| - 1])
  }

  lemma {:induction false} ParseDecimalOfDecimal(n: nat)
    ensures ParseDecimal(Decimal(n)) == n
  {
    if n >= 10 {
      var front := Decimal(n / 10);
      var s := Decimal(n);
      assert s == front + [DigitChar(n % 10)];
      assert s[..|s| - 1] == front;
      ParseDecimalOfDecimal(n / 10);
    } else {
      var s := Decimal(n);
      assert s[..|s| - 1] == [];
    }
  }

  /**
   * `formatTime` on a whole number of seconds: the minutes unpadded, a colon,
   * then the seconds within the minute, padded with a '0' below ten.
   */
  function FormatTime(seconds: nat): (text: string)
    ensures |text| >= 4 && text[|text| - 3] == ':'
    ensures AllDigits(text[..|text| - 3]) && AllDigits(text[|text| - 2..])
    ensures |text| == 4 || text[0] != '0'
  {
    var minutes := seconds / 60;
    var secs := seconds % 60;
    Decimal(minutes) + ":" + (if secs < 10 then "0" else "") + Decimal(secs)
  }

  /**
   * Reads an `M:SS` text back into seconds: any number of minute digits, a
   * colon and exactly two second digits below 60.
   */
  function ParseTime(text: string): (r: Option<nat>)
    ensures r.Some? ==> |text| >= 4 && text[|text| - 3] == ':'
  {
    if |text| < 4 || text[|text| - 3] != ':' then None
    else
      var minutes := text[..|text| - 3];
      var secs := text[|text| - 2..];
      if !AllDigits(minutes) || !AllDigits(secs) then None
      else if ParseDecimal(secs) >= 60 then None
      else Some(ParseDecimal(minutes) * 60 + ParseDecimal(secs))
  }

  /** Two digits read as a number. */
  lemma TwoDigits(s: string)
    requires |s| == 2 && AllDigits(s)
    ensures ParseDecimal(s) == DigitValue(s[0]) * 10 + DigitValue(s[1])
  {
    var front := s[..1];
    assert front[..0] == [];
    assert ParseDecimal(front) == ParseDecimal([]) * 10 + DigitValue(s[0]);
    assert s[..|s| - 1] == front;
  }

  /** The two parts of the time text: the minutes as `Decimal` writes them, then the padded seconds. */
  lemma FormatTimeParts(seconds: nat)
    ensures var text := FormatTime(seconds);
      && text[..|text| - 3] == Decimal(seconds / 60)
      && text[|text| - 2..] == (if seconds % 60 < 10 then "0" else "") + Decimal(seconds % 60)
  {
    var tail := (if seconds % 60 < 10 then "0" else "") + Decimal(seconds % 60);
    var text := FormatTime(seconds);
    assert |tail| == 2;
    assert text == Decimal(seconds / 60) + ":" + tail;
  }

  /** The time text loses nothing: reading it back gives the seconds it was made from. */
  lemma ParseFormatTime(seconds: nat)
    ensures ParseTime(FormatTime(seconds)) == Some(seconds)
  {
    var minutes, secs := seconds / 60, seconds % 60;
    var tail := (if secs < 10 then "0" else "") + Decimal(secs);
    FormatTimeParts(seconds);
    ParseDecimalOfDecimal(minutes);
    TwoDigits(tail);
    if secs >= 10 {
      ParseDecimalOfDecimal(secs);
    }
    assert ParseDecimal(tail) == secs;
  }

  /** The examples of the time format: 65 s, 5 s and 125 s. */
  lemma FormatTimeExamples()
    ensures FormatTime(65) == "1:05"
    ensures FormatTime(5) == "0:05"
    ensures FormatTime(125) == "2:05"
  {
    assert Decimal(1) == "1" && Decimal(5) == "5" && Decimal(0) == "0" && Decimal(2) == "2";
  }

  datatype VolumeIcon = Mute | Low | Full

  /**
   * The icon `updateVolumeIcon` picks for a volume given in percent: mute
   * exactly at zero, low below one half, full from one half up.
   */
  function IconFor(level: nat): (icon: VolumeIcon)
    ensures icon == Mute <==> level == 0
    ensures icon == Low <==> 0 < level < 50
    ensures icon == Full <==> 50 <= level
  {
    if level == 0 then Mute else if level < 50 then Low else Full
  }
}

=== FILE: playback.dfy ===
/**
 * The playback state machine of the player (script.js), as values.
 *
 * A `Session` holds everything the handlers of script.js read or write once
 * the page markup is set aside: each track's media element (paused flag,
 * position in whole seconds, whether `updateProgress` listens to its
 * `timeupdate`, volume in percent), each track's button icon, the module
 * variables `currentPlayingAudio`, `currentIndex`, `isShuffle`, `isRepeat`
 * and `isDragging`, and the few widgets the handlers set: the global
 * play/pause icon, the volume slider, the volume icon and the elapsed-time
 * text. Each handler is a function from the session before to the session
 * after; class `Controller.Player` runs the same handlers in place.
 */
module Playback {
  import opened Wrappers
  import opened Display

  /** One host media element, as the handlers see it. */
  datatype Audio = Audio(paused: bool, position: nat, subscribed: bool, volume: nat)

  datatype Session = Session(
    audio: seq<Audio>,       // the media elements, in page order
    showsPause: seq<bool>,   // per-track button shows the pause icon
    active: Option<nat>,     // currentPlayingAudio (and currentAudioButton), by index
    index: nat,              // currentIndex
    shuffle: bool,           // isShuffle
    repeat: bool,            // isRepeat
    dragging: bool,          // isDragging
    globalShowsPause: bool,  // the global play/pause button shows the pause icon
    slider: nat,             // the volume slider, in percent
    icon: VolumeIcon,        // the volume icon
    elapsedShown: nat)       // the elapsed-time text, in seconds

  /** Volume the host gives a media element at page load (1.0). */
  const DefaultVolume: nat := 100
  /** Volume `toggleMute` restores when the active track is silent (0.5). */
  const UnmuteVolume: nat := 50

  /** A track that is stopped: paused, at the start, not reporting progress. */
  predicate Rewound(a: Audio)
  {
    a.paused && a.position == 0 && !a.subscribed
  }

  /**
   * The shape every handler needs: one button per track, indices in range,
   * volumes in percent, and every track other than the active one stopped
   * with its button showing "play".
   */
  ghost predicate Wf(s: Session)
  {
    && |s.audio| > 0
    && |s.showsPause| == |s.audio|
    && s.index < |s.audio|
    && (s.active.Some? ==> s.active.value < |s.audio|)
    && (forall k :: 0 <= k < |s.audio| && s.active != Some(k) ==> Rewound(s.audio[k]) && !s.showsPause[k])
    && (forall k :: 0 <= k < |s.audio| ==> s.audio[k].volume <= 100)
    && s.slider <= 100
  }

  /** Between handlers, the active track is also `currentIndex` and keeps its progress listener. */
  ghost predicate Inv(s: Session)
  {
    Wf(s) && (s.active.Some? ==> s.active.value == s.index && s.audio[s.active.value].subscribed)
  }

  /** At most one track is playing, and it is the active one. */
  ghost predicate OnlyActivePlays(s: Session)
  {
    forall k :: 0 <= k < |s.audio| && !s.audio[k].paused ==> s.active == Some(k)
  }

  lemma InvOnlyActivePlays(s: Session)
    requires Inv(s)
    ensures OnlyActivePlays(s)
    ensures forall j, k :: 0 <= j < k < |s.audio| ==> s.audio[j].paused || s.audio[k].paused
  {
  }

  /** The session at page load: `n` tracks, all stopped, nothing active. */
  function Init(n: nat, slider: nat): (s: Session)
    requires n > 0 && slider <= 100
    ensures Inv(s) && s.active == None && s.index == 0 && |s.audio| == n
    ensures !s.shuffle && !s.repeat && !s.dragging
  {
    Session(seq(n, _ => Audio(true, 0, false, DefaultVolume)), seq(n, _ => false),
            None, 0, false, false, false, false, slider, IconFor(slider), 0)
  }

  /**
   * `resetCurrentAudio`: the active track, if any, is paused, rewound to 0,
   * loses its progress listener and its button shows "play". The active slot
   * itself is left as it was.
   */
  function Reset(s: Session): (r: Session)
    requires Wf(s)
    ensures Wf(r) && |r.audio| == |s.audio|
    ensures r.active == s.active && r.index == s.index
    ensures s.active.Some? ==> Rewound(r.audio[s.active.value]) && !r.showsPause[s.active.value]
    ensures forall k :: 0 <= k < |s.audio| && s.active != Some(k) ==>
              r.audio[k] == s.audio[k] && r.showsPause[k] == s.showsPause[k]
    ensures forall k :: 0 <= k < |s.audio| ==> r.audio[k].volume == s.audio[k].volume
    ensures r.(audio := s.audio, showsPause := s.showsPause) == s
  {
    match s.active
    case None => s
    case Some(a) =>
      s.(audio := s.audio[a := s.audio[a].(paused := true, position := 0, subscribed := false)],
         showsPause := s.showsPause[a := false])
  }

  /**
   * `playTrack`: stop the active track, then play track `currentIndex`, listen
   * to its progress and show "pause" on its button and on the global button.
   */
  function PlayTrack(s: Session): (r: Session)
    requires Wf(s)
    ensures Inv(r) && |r.audio| == |s.audio|
    ensures r.active == Some(s.index) && r.index == s.index
    ensures !r.audio[s.index].paused && r.audio[s.index].position == 0 && r.audio[s.index].subscribed
    ensures r.showsPause[s.index] && r.globalShowsPause
    ensures forall k :: 0 <= k < |s.audio| ==> r.audio[k].volume == s.audio[k].volume
    ensures r.shuffle == s.shuffle && r.repeat == s.repeat && r.dragging == s.dragging
    ensures r.slider == s.slider && r.icon == s.icon && r.elapsedShown == s.elapsedShown
  {
    var t := Reset(s);
    var i := s.index;
    t.(audio := t.audio[i := t.audio[i].(paused := false, subscribed := true)],
       showsPause := t.showsPause[i := true],
       globalShowsPause := true,
       active := Some(i))
  }

  /** The index `nextTrack` moves to: the caller's `pick` when shuffling, else the following track. */
  function NextIndex(s: Session, pick: nat): nat
    requires |s.audio| > 0
  {
    if s.shuffle then pick else (s.index + 1) % |s.audio|
  }

  /** The index `previousTrack` moves to: the preceding track, shuffle or not. */
  function PreviousIndex(s: Session): nat
    requires |s.audio| > 0
  {
    (s.index - 1 + |s.audio|) % |s.audio|
  }

  /**
   * `nextTrack`: stop the active track, move `currentIndex` on (to `pick`,
   * the random draw, when shuffling) and play it from the start.
   */
  function Next(s: Session, pick: nat): (r: Session)
    requires Inv(s) && pick < |s.audio|
    ensures Inv(r) && |r.audio| == |s.audio|
    ensures r.index == (if s.shuffle then pick else (s.index + 1) % |s.audio|)
    ensures r.active == Some(r.index) && !r.audio[r.index].paused && r.audio[r.index].position == 0
    ensures r.shuffle == s.shuffle && r.repeat == s.repeat
  {
    PlayTrack(Reset(s).(index := NextIndex(s, pick)))
  }

  /** `previousTrack`: stop the active track and play the preceding one, wrapping from 0 to the last. */
  function Previous(s: Session): (r: Session)
    requires Inv(s)
    ensures Inv(r) && |r.audio| == |s.audio|
    ensures r.active == Some(r.index) && !r.audio[r.index].paused && r.audio[r.index].position == 0
    ensures r.audio[r.index].subscribed
    ensures r.shuffle == s.shuffle && r.repeat == s.repeat
  {
    PlayTrack(Reset(s).(index := PreviousIndex(s)))
  }

  /** `handleSongEnd`: replay the current track under repeat, otherwise `nextTrack`. */
  function SongEnd(s: Session, pick: nat): (r: Session)
    requires Inv(s) && pick < |s.audio|
    ensures Inv(r) && |r.audio| == |s.audio|
    ensures r.shuffle == s.shuffle && r.repeat == s.repeat
  {
    if s.repeat then PlayTrack(s) else Next(s, pick)
  }

  /**
   * `handlePlayPause` for the button of track `k`: stop another active
   * track first; then play `k` if it is paused (listening to its progress)
   * or pause it if it is playing, updating its button and the global
   * button; `k` becomes the active track and `currentIndex`.
   */
  function PlayPause(s: Session, k: nat): (r: Session)
    requires Inv(s) && k < |s.audio|
    ensures Inv(r) && |r.audio| == |s.audio|
    ensures r.active == Some(k) && r.index == k
    ensures r.audio[k].paused == !s.audio[k].paused
    ensures r.showsPause[k] == !r.audio[k].paused && r.globalShowsPause == !r.audio[k].paused
    ensures r.shuffle == s.shuffle && r.repeat == s.repeat
  {
    var t := if s.active.Some? && s.active.value != k then Reset(s) else s;
    ToggleKeepsInv(t, k);
    Toggle(t, k).(active := Some(k), index := k)
  }

  /** Once every track but `k` is stopped, toggling `k` and making it active keeps the invariant. */
  lemma ToggleKeepsInv(t: Session, k: nat)
    requires Wf(t) && k < |t.audio|
    requires forall j :: 0 <= j < |t.audio| && j != k ==> Rewound(t.audio[j]) && !t.showsPause[j]
    requires t.audio[k].paused || t.audio[k].subscribed
    ensures Inv(Toggle(t, k).(active := Some(k), index := k))
  {
    var r := Toggle(t, k).(active := Some(k), index := k);
    forall j | 0 <= j < |r.audio|
      ensures r.audio[j].volume <= 100
    {
      assert j != k ==> r.audio[j] == t.audio[j];
    }
  }

  /**
   * The second half of `handlePlayPause`: play track `k` if paused,
   * listening to its progress, else pause it; its button and the global
   * button follow.
   */
  function Toggle(t: Session, k: nat): (r: Session)
    requires k < |t.audio| == |t.showsPause|
    ensures |r.audio| == |t.audio| == |r.showsPause|
    ensures r.audio[k] == t.audio[k].(paused := !t.audio[k].paused, subscribed := t.audio[k].subscribed || t.audio[k].paused)
    ensures r.showsPause[k] == !r.audio[k].paused && r.globalShowsPause == !r.audio[k].paused
    ensures r.shuffle == t.shuffle && r.repeat == t.repeat && r.slider == t.slider
    ensures forall j :: 0 <= j < |t.audio| && j != k ==> r.audio[j] == t.audio[j] && r.showsPause[j] == t.showsPause[j]
  {
    var a := t.audio[k];
    if a.paused then
      t.(audio := t.audio[k := a.(paused := false, subscribed := true)],
         showsPause := t.showsPause[k := true], globalShowsPause := true)
    else
      t.(audio := t.audio[k := a.(paused := true)],
         showsPause := t.showsPause[k := false], globalShowsPause := false)
  }

  /**
   * The global play/pause button: nothing without an active track; else
   * resume or pause the active track and set the global icon only. The
   * track's own button keeps its icon.
   */
  function GlobalToggle(s: Session): (r: Session)
    requires Inv(s)
    ensures Inv(r) && |r.audio| == |s.audio|
  {
    match s.active
    case None => s
    case Some(a) =>
      var t := s.audio[a];
      s.(audio := s.audio[a := t.(paused := !t.paused)], globalShowsPause := t.paused)
  }

  /** The shuffle button; the invariant does not depend on the flag. */
  function ToggleShuffle(s: Session): (r: Session)
    ensures Inv(r) <==> Inv(s)
  {
    s.(shuffle := !s.shuffle)
  }

  /** The repeat button; the invariant does not depend on the flag. */
  function ToggleRepeat(s: Session): (r: Session)
    ensures Inv(r) <==> Inv(s)
  {
    s.(repeat := !s.repeat)
  }

  /**
   * The volume slider's input event with the slider at `level` percent: the
   * active track, if any, takes that volume and the icon follows it. With
   * no active track only the slider itself has moved.
   */
  function SetVolume(s: Session, level: nat): (r: Session)
    requires Inv(s) && level <= 100
    ensures Inv(r) && |r.audio| == |s.audio|
    ensures r.slider == level
    ensures s.active.Some? ==> r.audio[s.active.value] == s.audio[s.active.value].(volume := level) && r.icon == IconFor(level)
    ensures forall j :: 0 <= j < |s.audio| && s.active != Some(j) ==> r.audio[j] == s.audio[j]
    ensures r.(audio := s.audio, slider := s.slider, icon := s.icon) == s
  {
    match s.active
    case None => s.(slider := level)
    case Some(a) =>
      s.(audio := s.audio[a := s.audio[a].(volume := level)], slider := level, icon := IconFor(level))
  }

  /**
   * `toggleMute`: nothing without an active track; else a nonzero volume
   * drops to 0 and 0 goes to the fixed 50, on the track, the slider and the
   * icon. The volume before muting is not kept.
   */
  function ToggleMute(s: Session): (r: Session)
    requires Inv(s)
    ensures Inv(r) && |r.audio| == |s.audio|
    ensures s.active.Some? ==>
      var a := s.active.value;
      var level := if s.audio[a].volume > 0 then 0 else UnmuteVolume;
      r.audio[a] == s.audio[a].(volume := level) && r.slider == level && r.icon == IconFor(level)
    ensures forall j :: 0 <= j < |s.audio| && s.active != Some(j) ==> r.audio[j] == s.audio[j]
    ensures r.(audio := s.audio, slider := s.slider, icon := s.icon) == s
  {
    match s.active
    case None => s
    case Some(a) =>
      var level := if s.audio[a].volume > 0 then 0 else UnmuteVolume;
      s.(audio := s.audio[a := s.audio[a].(volume := level)], slider := level, icon := IconFor(level))
  }

  /** Mousedown on the progress bar. */
  function BeginDrag(s: Session): (r: Session)
    ensures Inv(r) <==> Inv(s)
  {
    s.(dragging := true)
  }

  /** Mouseup on the progress bar: dragging ends and the active track seeks to `target` seconds. */
  function EndDrag(s: Session, target: nat): (r: Session)
    requires Inv(s)
    ensures Inv(r) && |r.audio| == |s.audio|
    ensures !r.dragging
  {
    match s.active
    case None => s.(dragging := false)
    case Some(a) => s.(dragging := false, audio := s.audio[a := s.audio[a].(position := target)])
  }

  /** Input on the progress bar during a drag: only the elapsed text previews `target`. */
  function DragInput(s: Session, target: nat): (r: Session)
    ensures Inv(r) <==> Inv(s)
  {
    if s.active.Some? && s.dragging then s.(elapsedShown := target) else s
  }

  /** `updateProgress`: unless a drag is under way, the display follows the active track. */
  function UpdateProgress(s: Session): (r: Session)
    requires Wf(s)
    ensures r.(elapsedShown := s.elapsedShown) == s
    ensures Inv(r) <==> Inv(s)
  {
    if s.active.Some? && !s.dragging then s.(elapsedShown := s.audio[s.active.value].position) else s
  }

  /** A `timeupdate` event from track `k`: it reaches `updateProgress` only if subscribed. */
  function TimeUpdate(s: Session, k: nat): (r: Session)
    requires Wf(s) && k < |s.audio|
    ensures r.(elapsedShown := s.elapsedShown) == s
    ensures Inv(r) <==> Inv(s)
  {
    if s.audio[k].subscribed then UpdateProgress(s) else s
  }

  // ---------------------------------------------------------------------------
  // Sequences of user and host events

  datatype Event =
    | Select(track: nat)
    | GlobalButton
    | NextButton(pick: nat)
    | PreviousButton
    | Ended(pick: nat)
    | ShuffleButton
    | RepeatButton
    | VolumeInput(level: nat)
    | VolumeIconClick
    | MouseDown
    | MouseUp(target: nat)
    | ProgressInput(target: nat)
    | Tick(track: nat)

  /** The events the page can deliver to a player of `n` tracks. */
  predicate Allowed(n: nat, e: Event)
  {
    match e
    case Select(k) => k < n
    case NextButton(p) => p < n
    case Ended(p) => p < n
    case VolumeInput(level) => level <= 100
    case Tick(k) => k < n
    case _ => true
  }

  function Apply(s: Session, e: Event): (r: Session)
    requires Inv(s) && Allowed(|s.audio|, e)
    ensures Inv(r) && |r.audio| == |s.audio|
  {
    match e
    case Select(k) => PlayPause(s, k)
    case GlobalButton => GlobalToggle(s)
    case NextButton(p) => Next(s, p)
    case PreviousButton => Previous(s)
    case Ended(p) => SongEnd(s, p)
    case ShuffleButton => ToggleShuffle(s)
    case RepeatButton => ToggleRepeat(s)
    case VolumeInput(level) => SetVolume(s, level)
    case VolumeIconClick => ToggleMute(s)
    case MouseDown => BeginDrag(s)
    case MouseUp(t) => EndDrag(s, t)
    case ProgressInput(t) => DragInput(s, t)
    case Tick(k) => TimeUpdate(s, k)
  }

  function Run(s: Session, events: seq<Event>): Session
    requires Inv(s) && forall e <- events :: Allowed(|s.audio|, e)
    decreases events
  {
    if events == [] then s else Run(Apply(s, events[0]), events[1..])
  }

  /** After any sequence of events, at most one track plays and it is the active one. */
  lemma {:induction false} RunKeepsInv(s: Session, events: seq<Event>)
    requires Inv(s) && forall e <- events :: Allowed(|s.audio|, e)
    ensures Inv(Run(s, events)) && |Run(s, events).audio| == |s.audio|
    ensures OnlyActivePlays(Run(s, events))
    decreases events
  {
    if events == [] {
      InvOnlyActivePlays(s);
    } else {
      RunKeepsInv(Apply(s, events[0]), events[1..]);
    }
  }
}

=== FILE: properties.dfy ===
/**
 * What the handlers of script.js promise about each other, stated over the
 * `Playback` session functions: index wrap-around, next and previous undoing
 * each other, repeat replaying the same track, resetting twice being
 * resetting once, what choosing a track does to the others, the drag guard
 * on progress updates, and the lossy mute.
 */
module Properties {
  import opened Wrappers
  import opened Display
  import opened Playback

  // ---------------------------------------------------------------------------
  // Index arithmetic

  /** Adding one modulo n, for an index already below n. */
  lemma SuccMod(i: nat, n: nat)
    requires i < n
    ensures (i + 1) % n == if i + 1 == n then 0 else i + 1
  {
  }

  /** Subtracting one modulo n (written as `i - 1 + n`), for an index below n. */
  lemma PredMod(i: nat, n: nat)
    requires i < n
    ensures (i - 1 + n) % n == if i == 0 then n - 1 else i - 1
  {
    if i > 0 {
      var x := i - 1 + n;
      assert n <= x < 2 * n;
      assert x == n * 1 + (i - 1);
    }
  }

  lemma MulNonneg(a: nat, b: nat)
    ensures a * b >= 0
  {
  }

  /** The only multiple of n strictly between -n and n is 0. */
  lemma MulBound(n: nat, d: int)
    requires n > 0 && -(n as int) < n * d < n
    ensures d == 0
  {
    if d >= 1 {
      assert n * d == n * (d - 1) + n;
      MulNonneg(n, d - 1);
    } else if d <= -1 {
      assert false;
    }
  }

  /** Adding n does not change a remainder modulo n. */
  lemma ModPlus(x: nat, n: nat)
    requires n > 0
    ensures (x + n) % n == x % n
  {
    var q, r := x / n, x % n;
    var q', r' := (x + n) / n, (x + n) % n;
    assert x == n * q + r;
    assert x + n == n * q' + r';
    assert n * (q' - q - 1) == r - r' by {
      assert n * (q' - q - 1) == n * q' - n * q - n;
    }
    MulBound(n, q' - q - 1);
  }

  /** The index after `k` steps forward from `i` among `n` tracks, one wrap at a time. */
  function StepIndex(i: nat, n: nat, k: nat): nat
    requires i < n
    decreases k
  {
    if k == 0 then i else StepIndex((i + 1) % n, n, k - 1)
  }

  /**
   * `nextTrack` pressed `k` times without shuffle (the random draw is then
   * unused): each press moves the index on by one, wrapping past the last track.
   */
  function Advance(s: Session, k: nat): (r: Session)
    requires Inv(s) && !s.shuffle
    ensures r.index == StepIndex(s.index, |s.audio|, k)
    decreases k
  {
    if k == 0 then s else Advance(Next(s, 0), k - 1)
  }

  /** `k` single steps forward land on `(i + k) mod n`. */
  lemma {:induction false} StepIndexMod(i: nat, n: nat, k: nat)
    requires i < n
    ensures StepIndex(i, n, k) == (i + k) % n
    decreases k
  {
    if k > 0 {
      SuccMod(i, n);
      StepIndexMod((i + 1) % n, n, k - 1);
      if i + 1 == n {
        assert i + k == (k - 1) + n;
        ModPlus(k - 1, n);
      }
    }
  }

  /** Without shuffle, `k` presses of next move the index on by `k`, wrapping past the last track. */
  lemma {:induction false} AdvanceIndex(s: Session, k: nat)
    requires Inv(s) && !s.shuffle
    ensures Advance(s, k).index == (s.index + k) % |s.audio|
  {
    StepIndexMod(s.index, |s.audio|, k);
  }

  /** A number below n is its own remainder. */
  lemma ModSmall(x: nat, n: nat)
    requires x < n
    ensures x % n == x
  {
  }

  /** A number between n and 2n, reduced modulo n. */
  lemma ModOnce(x: nat, n: nat)
    requires 0 < n <= x < 2 * n
    ensures x % n == x - n
  {
    assert x == n * 1 + (x - n);
  }

  /** Without shuffle, pressing next once per track comes back to the starting track. */
  lemma {:induction false} NextCycles(s: Session)
    requires Inv(s) && !s.shuffle
    ensures Advance(s, |s.audio|).index == s.index
  {
    var n := |s.audio|;
    AdvanceIndex(s, n);
    ModOnce(s.index + n, n);
  }

  /** ... and not sooner: fewer presses than there are tracks never come back. */
  lemma {:induction false} NextNotBackSooner(s: Session, k: nat)
    requires Inv(s) && !s.shuffle && 0 < k < |s.audio|
    ensures Advance(s, k).index != s.index
  {
    var n := |s.audio|;
    AdvanceIndex(s, k);
    var x := s.index + k;
    if x >= n {
      ModOnce(x, n);
      assert x % n == x - n < s.index;
    } else {
      ModSmall(x, n);
      assert x % n == x > s.index;
    }
  }

  /** With shuffle, next plays the drawn track, which may be the current one again. */
  lemma ShuffleNextPlaysPick(s: Session, pick: nat)
    requires Inv(s) && s.shuffle && pick < |s.audio|
    ensures Next(s, pick).index == pick && Next(s, pick).active == Some(pick)
    ensures !Next(s, pick).audio[pick].paused && Next(s, pick).audio[pick].position == 0
  {
  }

  /** `previousTrack` steps back one track and wraps from the first to the last, shuffle or not. */
  lemma PreviousWraps(s: Session)
    requires Inv(s)
    ensures Previous(s).index == if s.index == 0 then |s.audio| - 1 else s.index - 1
    ensures Previous(s).active == Some(Previous(s).index)
  {
    PredMod(s.index, |s.audio|);
  }

  /** Five tracks, first one current: previous goes to the fifth. */
  lemma PreviousFromFirstOfFive(s: Session)
    requires Inv(s) && |s.audio| == 5 && s.index == 0
    ensures Previous(s).index == 4
  {
    PreviousWraps(s);
  }

  // ---------------------------------------------------------------------------
  // Reset and the play path

  /** Resetting the active track twice is resetting it once. */
  lemma ResetTwice(s: Session)
    requires Wf(s)
    ensures Reset(Reset(s)) == Reset(s)
  {
  }

  /**
   * `nextTrack` and `previousTrack` reset, then `playTrack` resets again:
   * the second reset changes nothing.
   */
  lemma PlayTrackAfterReset(s: Session)
    requires Wf(s)
    ensures PlayTrack(Reset(s)) == PlayTrack(s)
  {
    ResetTwice(s);
  }

  /** The track that was active before next or previous is left stopped, with its button on "play". */
  lemma NextStopsPrevious(s: Session, pick: nat)
    requires Inv(s) && pick < |s.audio| && s.active.Some?
    ensures var a, r := s.active.value, Next(s, pick);
      a != r.index ==> Rewound(r.audio[a]) && !r.showsPause[a]
    ensures var a, r := s.active.value, Previous(s);
      a != r.index ==> Rewound(r.audio[a]) && !r.showsPause[a]
  {
  }

  /** Equal sessions track by track are equal. */
  lemma SessionsEqual(x: Session, y: Session)
    requires |x.audio| == |y.audio| && |x.showsPause| == |y.showsPause|
    requires forall k :: 0 <= k < |x.audio| ==> x.audio[k] == y.audio[k]
    requires forall k :: 0 <= k < |x.showsPause| ==> x.showsPause[k] == y.showsPause[k]
    requires x.(audio := y.audio, showsPause := y.showsPause) == y
    ensures x == y
  {
    assert x.audio == y.audio;
    assert x.showsPause == y.showsPause;
  }

  /**
   * What `playTrack` leaves depends only on `currentIndex`, the tracks'
   * volumes and the flags: not on which track was active nor on the other
   * tracks' positions, since every track but the chosen one ends stopped.
   */
  lemma PlayTrackDetermined(u: Session, v: Session)
    requires Wf(u) && Wf(v) && |u.audio| == |v.audio| && u.index == v.index
    requires forall k :: 0 <= k < |u.audio| ==> u.audio[k].volume == v.audio[k].volume
    requires u.(audio := v.audio, showsPause := v.showsPause, active := v.active, globalShowsPause := v.globalShowsPause) == v
    ensures PlayTrack(u) == PlayTrack(v)
  {
    var x, y := PlayTrack(u), PlayTrack(v);
    forall k | 0 <= k < |u.audio|
      ensures x.audio[k] == y.audio[k] && x.showsPause[k] == y.showsPause[k]
    {
      if k != u.index {
        assert Rewound(x.audio[k]) && Rewound(y.audio[k]);
      }
    }
    SessionsEqual(x, y);
  }

  /**
   * Without shuffle, next after previous plays the track that was current,
   * from the start, exactly as `playTrack` would have; so does previous
   * after next.
   */
  lemma NextUndoesPrevious(s: Session, pick: nat)
    requires Inv(s) && !s.shuffle && pick < |s.audio|
    ensures Next(Previous(s), pick) == PlayTrack(s)
  {
    var p := Previous(s);
    PreviousWraps(s);
    SuccMod(p.index, |s.audio|);
    var u := Reset(p).(index := NextIndex(p, pick));
    assert u.index == s.index;
    PlayTrackDetermined(u, s);
  }

  lemma PreviousUndoesNext(s: Session, pick: nat)
    requires Inv(s) && !s.shuffle && pick < |s.audio|
    ensures Previous(Next(s, pick)) == PlayTrack(s)
  {
    var q := Next(s, pick);
    SuccMod(s.index, |s.audio|);
    PreviousWraps(q);
    var u := Reset(q).(index := PreviousIndex(q));
    assert u.index == s.index;
    PlayTrackDetermined(u, s);
  }

  // ---------------------------------------------------------------------------
  // Track completion

  /**
   * Under repeat, a finished track is played again from the start: the
   * index stays, that track becomes active and plays at position 0, and
   * every other track is stopped.
   */
  lemma RepeatReplaysSameTrack(s: Session, pick: nat)
    requires Inv(s) && s.repeat && pick < |s.audio|
    ensures var r := SongEnd(s, pick);
      && r.index == s.index && r.active == Some(s.index)
      && !r.audio[s.index].paused && r.audio[s.index].position == 0
      && r.audio[s.index].volume == s.audio[s.index].volume
      && (forall k :: 0 <= k < |s.audio| && k != s.index ==> Rewound(r.audio[k]))
  {
  }

  /** Without repeat, a finished track has exactly the effect of the next button. */
  lemma EndedIsNextWithoutRepeat(s: Session, pick: nat)
    requires Inv(s) && !s.repeat && pick < |s.audio|
    ensures SongEnd(s, pick) == Next(s, pick)
  {
  }

  /**
   * `k` tracks in a row playing to their end, shuffle and repeat off (the
   * random draw is then unused): each end moves the index on by one, as a
   * press of next does.
   */
  function Finish(s: Session, k: nat): (r: Session)
    requires Inv(s) && !s.shuffle && !s.repeat
    ensures r.index == StepIndex(s.index, |s.audio|, k)
    decreases k
  {
    if k == 0 then s else Finish(SongEnd(s, 0), k - 1)
  }

  /**
   * Three tracks, shuffle and repeat off: play the first, and each time the
   * playing track ends the next one starts, wrapping from the third back to
   * the first.
   */
  lemma ThreeTrackScenario(slider: nat)
    requires slider <= 100
    ensures var s := PlayPause(Init(3, slider), 0);
      && s.index == 0 && s.active == Some(0) && !s.audio[0].paused
      && Finish(s, 1).index == 1 && Finish(s, 2).index == 2 && Finish(s, 3).index == 0
  {
    var s := PlayPause(Init(3, slider), 0);
    StepIndexMod(0, 3, 3);
    StepIndexMod(0, 3, 2);
    StepIndexMod(0, 3, 1);
  }

  // ---------------------------------------------------------------------------
  // Choosing a track with its own button

  /**
   * Pressing the button of the active track only flips its paused flag: its
   * position, its volume and every other track stay as they were.
   */
  lemma SelectActiveToggles(s: Session, k: nat)
    requires Inv(s) && k < |s.audio| && s.active == Some(k)
    ensures var r := PlayPause(s, k);
      && r.audio[k] == s.audio[k].(paused := !s.audio[k].paused)
      && (forall j :: 0 <= j < |s.audio| && j != k ==> r.audio[j] == s.audio[j])
  {
  }

  /**
   * Pressing the button of another track stops and rewinds the active one
   * and starts the chosen one from position 0: tracks other than the active
   * one are always rewound.
   */
  lemma SelectOtherStartsFromZero(s: Session, k: nat)
    requires Inv(s) && k < |s.audio| && s.active != Some(k)
    ensures var r := PlayPause(s, k);
      && !r.audio[k].paused && r.audio[k].position == 0 && r.audio[k].subscribed
      && r.showsPause[k] && r.globalShowsPause
      && (s.active.Some? ==> Rewound(r.audio[s.active.value]) && !r.showsPause[s.active.value])
  {
  }

  // ---------------------------------------------------------------------------
  // The global button, shuffle and repeat

  /** The global play/pause button does nothing while no track is active. */
  lemma GlobalToggleIdle(s: Session)
    requires Inv(s) && s.active == None
    ensures GlobalToggle(s) == s
  {
  }

  /**
   * With an active track, the global button flips that track's paused flag
   * and its own icon, and nothing else: not the index, not the other tracks,
   * and not the track's own button icon.
   */
  lemma GlobalToggleFlipsActive(s: Session)
    requires Inv(s) && s.active.Some?
    ensures var a, r := s.active.value, GlobalToggle(s);
      && r.audio[a] == s.audio[a].(paused := !s.audio[a].paused)
      && r.globalShowsPause == !r.audio[a].paused
      && r.(audio := s.audio, globalShowsPause := s.globalShowsPause) == s
      && r.index == s.index && r.active == s.active
      && r.showsPause == s.showsPause
      && (forall j :: 0 <= j < |s.audio| && j != a ==> r.audio[j] == s.audio[j])
  {
  }

  /**
   * The global button leaves the track button's icon behind: after pausing a
   * track that its own button started, that button still shows "pause".
   */
  lemma GlobalToggleLeavesTrackIcon(s: Session)
    requires Inv(s) && s.active.Some?
    requires s.showsPause[s.active.value] == !s.audio[s.active.value].paused
    ensures var a, r := s.active.value, GlobalToggle(s);
      r.showsPause[a] != !r.audio[a].paused
  {
  }

  /** The shuffle and repeat buttons each flip their own flag and nothing else; twice is no change. */
  lemma TogglesFlipOwnFlag(s: Session)
    ensures ToggleShuffle(s).shuffle != s.shuffle && ToggleShuffle(s).(shuffle := s.shuffle) == s
    ensures ToggleRepeat(s).repeat != s.repeat && ToggleRepeat(s).(repeat := s.repeat) == s
    ensures ToggleShuffle(ToggleShuffle(s)) == s && ToggleRepeat(ToggleRepeat(s)) == s
  {
  }

  // ---------------------------------------------------------------------------
  // Progress bar

  /** While a drag is under way, or with no active track, progress updates change nothing. */
  lemma ProgressGuard(s: Session, k: nat)
    requires Inv(s) && k < |s.audio|
    requires s.dragging || s.active == None
    ensures UpdateProgress(s) == s && TimeUpdate(s, k) == s
  {
  }

  /** Only a track that `updateProgress` listens to moves the display. */
  lemma UnsubscribedTickIgnored(s: Session, k: nat)
    requires Inv(s) && k < |s.audio| && s.active != Some(k)
    ensures TimeUpdate(s, k) == s
  {
  }

  /** A run of progress ticks from any tracks during a drag leaves the whole session unchanged. */
  lemma {:induction false} TicksDuringDrag(s: Session, ticks: seq<Event>)
    requires Inv(s) && s.dragging
    requires forall e <- ticks :: e.Tick? && e.track < |s.audio|
    ensures forall e <- ticks :: Allowed(|s.audio|, e)
    ensures Run(s, ticks) == s
    decreases ticks
  {
    if ticks != [] {
      ProgressGuard(s, ticks[0].track);
      assert Apply(s, ticks[0]) == s;
      assert forall e <- ticks[1..] :: e in ticks;
      TicksDuringDrag(s, ticks[1..]);
    }
  }

  /** Mousedown then mouseup leaves no drag under way and seeks the active track to the chosen position; nothing else about the tracks changes. */
  lemma DragThenRelease(s: Session, target: nat)
    requires Inv(s)
    ensures var r := EndDrag(BeginDrag(s), target);
      && !r.dragging
      && (s.active.Some? ==> r.audio == s.audio[s.active.value := s.audio[s.active.value].(position := target)])
      && (s.active == None ==> r.audio == s.audio)
  {
    assert Inv(BeginDrag(s));
  }

  /** Previewing positions during a drag touches only the elapsed-time text. */
  lemma DragInputOnlyPreviews(s: Session, target: nat)
    ensures DragInput(s, target).(elapsedShown := s.elapsedShown) == s
    ensures s.active.Some? && s.dragging ==> DragInput(s, target).elapsedShown == target
  {
  }

  // ---------------------------------------------------------------------------
  // Volume

  /** The slider sets the active track's volume and the matching icon; 0, 40 and 75 give mute, low, full. */
  lemma VolumeIcons(s: Session)
    requires Inv(s) && s.active.Some?
    ensures SetVolume(s, 0).icon == Mute
    ensures SetVolume(s, 40).icon == Low
    ensures SetVolume(s, 75).icon == Full
    ensures SetVolume(s, 75).audio[s.active.value].volume == 75
  {
  }

  /**
   * Mute is lossy: from any audible volume, two clicks of the volume icon
   * leave 50, not the volume there was (70 gives 0 and then 50).
   */
  lemma MuteIsLossy(s: Session)
    requires Inv(s) && s.active.Some? && s.audio[s.active.value].volume > 0
    ensures var a, m := s.active.value, ToggleMute(s);
      && m.audio[a].volume == 0 && m.slider == 0 && m.icon == Mute
      && ToggleMute(m).audio[a].volume == UnmuteVolume
      && ToggleMute(m).slider == UnmuteVolume && ToggleMute(m).icon == Full
  {
  }

  /** With no active track the slider moves and nothing else: no track volume, no icon. */
  lemma SetVolumeIdle(s: Session, level: nat)
    requires Inv(s) && s.active == None && level <= 100
    ensures SetVolume(s, level) == s.(slider := level)
  {
  }

  /** The volume icon does nothing while no track is active. */
  lemma MuteIdle(s: Session)
    requires Inv(s) && s.active == None
    ensures ToggleMute(s) == s
  {
  }

  /**
   * Volume belongs to each media element: moving to another track keeps
   * every track's own volume and the slider where they were, so the slider
   * can disagree with what the new track plays at.
   */
  lemma NextKeepsOwnVolumes(s: Session, pick: nat)
    requires Inv(s) && pick < |s.audio|
    ensures var r := Next(s, pick);
      && r.slider == s.slider
      && (forall k :: 0 <= k < |s.audio| ==> r.audio[k].volume == s.audio[k].volume)
  {
  }
}

=== FILE: wrappers.dfy ===
/** The optional value used for the player's "nothing is active" slot and for parse results. */
module Wrappers {

  datatype Option<+T> = None | Some(value: T)
}
